=== FILE: README.md ===
# socd-cross, modelled in Dafny

socd-cross is a keyboard remapper for games. It resolves SOCD (simultaneous opposite
cardinal direction) conflicts: when both keys of an opposed pair are held, the key
pressed last wins. Its OverBind variant turns keys into analog-stick motion on a
virtual Xbox controller. This project models the pure logic of five parts and
proves properties about them:

- `socd.dfy` (module `Socd`): the hard-coded four-direction state machine of the rdev
  listener. The four directions are left = `KeyA`, right = `KeyE`, up = `Comma`,
  down = `KeyO`. Each holds an `OpposedKeyState` (`Released`, `OpposedSeen`,
  `OpposedFresh`, `Pressed`). A call to rdev's `simulate` becomes the `emitted` part
  of a `Step`, so the callback is a function `(state, event) -> (state', Option<Synthetic>)`.
- `socd_recency.dfy` (module `SocdRecency`): what the machine means. Assume the echo
  of every synthetic event comes back through the listener before the next
  physical event. Then the four states are exactly the "last pressed wins" state of
  the keys that are physically held.
- `bindings.dfy` (module `Bindings`): the two-pass table build in
  `KeyInterceptor::start`. It covers hexadecimal keycode parsing, the remap table,
  the opposite-key table, and all-or-nothing installation.
- `analog.dfy` (module `Analog`): `analog_priority_transform`, `find_higher_priority`
  and `is_extended_key`.
- `overbind.dfy` (module `OverBind`): the OverBind low-level keyboard hook with its
  Win32 and ViGEm calls removed. What remains is the `KEY_HELD` update, the stick-axis
  selection, and the take/put-back of the shared controller target and gamepad.
- `keymap.dfy` (module `Keymap`): the `WEB_TO_RDEV_KEYMAP` table and the `MOD_KEYS` set.
- `wrappers.dfy` and `machine_int.dfy`: `Option`/`Result`, and the Rust integer
  widths with the `as u32` / `as u16` casts written out as modular arithmetic.

Behaviour of the code worth knowing:

- The second pass looks up the record's own keycode in the first pass's table. The
  comment at src-tauri/src/key_interceptor.rs:310 says the opposite keycode.
- A later record with the same keycode and the same kind (`"socd"` or not) is silently
  ignored; the first such record wins. Nothing reports it as a warning. A keycode with
  one record of each kind gets an entry in both tables, and this is the only case in
  which the second pass's own-keycode lookup finds a remap.
- An unparsable keycode makes `.expect` panic before either table is replaced. The
  model returns `Failure(InvalidHex(i))` for the first such record `i`, and `Reload`
  keeps the installed tables.
- The SOCD machine is the fixed four-state enum over four fixed keys. It is not the
  generic boolean-flag entry. It is not a table keyed by arbitrary key pairs.
  The `is_pressed` / `is_virtual_pressed` fields of the opposite-key table are built
  but never read by the listener.
- Positive stick values do not always outrank negative ones: `1` and `-32768` tie
  (see Findings).

## Model

| member | source | states |
|---|---|---|
| Socd.OnPress | src-tauri/src/key_interceptor.rs:94-173 | Pressing a key that is already `Pressed` changes nothing and emits nothing. Otherwise the key becomes `Pressed`. If the opposite was `Pressed`, the opposite becomes `OpposedFresh` and exactly one synthetic release of the opposite key is emitted; in every other case the opposite is unchanged and nothing is emitted. The other pair is untouched. |
| Socd.ReleaseOwn | src-tauri/src/key_interceptor.rs:182-187 | A released key never stays `Pressed` or `OpposedFresh`. It lands in `OpposedSeen` exactly when it was `OpposedFresh`. |
| Socd.OnRelease | src-tauri/src/key_interceptor.rs:181-252 | The released key steps by `ReleaseOwn`. An opposite in `OpposedFresh` or `OpposedSeen` becomes `Pressed`, with exactly one synthetic press of it. An opposite in `Released` or `Pressed` is unchanged and nothing is emitted. The other pair is untouched. |
| Socd.Callback | src-tauri/src/key_interceptor.rs:88-258 | Press and release events of the four bound keys go to `OnPress` / `OnRelease` for their direction. Every other key or event changes nothing and emits nothing. |
| Socd.CallbackKeepsExclusion | src-tauri/src/key_interceptor.rs:94-254 | No callback can leave both keys of a pair `Pressed` if they were not both `Pressed` before. |
| Socd.RunKeepsExclusion | src-tauri/src/key_interceptor.rs:88-258 | Over any event trace, the "never both `Pressed`" invariant holds at the end if it held at the start. |
| Socd.InitialNeverBothPressed | src-tauri/src/key_interceptor.rs:82-258 | From the all-`Released` start, no event trace ever makes A and E, or Comma and O, both `Pressed`. |
| Socd.RunLeavesUntouchedPair | src-tauri/src/key_interceptor.rs:89-257 | A trace with no event for a pair's keys leaves both of that pair's states unchanged. Every synthetic event it emits concerns the other pair. |
| Socd.EchoIsAbsorbed | src-tauri/src/key_interceptor.rs:94-197 | Feeding back the echo of whatever a callback emitted emits nothing. A synthetic press's echo hits the "already `Pressed`" return and changes no state. A synthetic release's echo only moves that key from `OpposedFresh` to `OpposedSeen`. |
| SocdRecency.SettlePressRefines | src-tauri/src/key_interceptor.rs:94-175 | Assume the echo comes straight back. From a "last pressed wins" state, pressing a key gives the "last pressed wins" state after that press. A release of the opposite key is injected exactly when the opposite was being asserted and this key was not. |
| SocdRecency.SettleReleaseRefines | src-tauri/src/key_interceptor.rs:181-254 | With the same echo assumption, releasing a key gives the "last pressed wins" state after that release. A press of the opposite key is injected exactly when the opposite is held but was overridden (`OpposedSeen`). |
| SocdRecency.SettleAllRefines | src-tauri/src/key_interceptor.rs:88-258 | Over any trace of physical presses and releases, key repeats included, the machine's state always equals the "last pressed wins" state of the physically held keys. |
| SocdRecency.InitialIsUntouched | src-tauri/src/key_interceptor.rs:82-87 | The all-`Released` start is the abstraction of "no key held". |
| MachineInt.AsU32 | src-tauri/src/key_interceptor.rs:308 | `as u32` on an `i32` is congruent to its input modulo 2^32, is the identity on non-negative values, and maps negative values to the top half. |
| MachineInt.AsU16 | src-tauri/src/key_interceptor.rs:320 | `as u16` on an `i32` is congruent to its input modulo 2^16, and is the identity on values in `u16` range. |
| Bindings.ParseHex | src-tauri/src/key_interceptor.rs:288-289 | `u32::from_str_radix(keycode, 16)` as a total function: `Some` of the value, or `None` where Rust returns an error. It carries no contract of its own; `ParseHexAccepts` and `ParseHexRoundTrip` state what it accepts. |
| Bindings.ParseHexAccepts | src-tauri/src/key_interceptor.rs:288-289 | A parsed keycode is the value of a non-empty string of hex digits, with at most one leading `+` skipped. Empty input and a leading `-` are rejected. |
| Bindings.ParseHexRoundTrip | src-tauri/src/key_interceptor.rs:288-289 | Every `u32` written in lower-case hex parses back to itself, with or without a leading `+`. |
| Bindings.BuildKeyStates | src-tauri/src/key_interceptor.rs:287-302 | Pass 1 succeeds exactly when every keycode parses. Otherwise it reports the first bad record. On success the table holds one entry per keycode of a non-`"socd"` record, and each entry comes from the first such record (not pressed, with that record's type and value). |
| Bindings.NewOppositeKey | src-tauri/src/key_interceptor.rs:307-331 | The entry that `or_insert_with` creates for a `"socd"` record. It carries no contract of its own; `NewOppositeKeyRule` states the rule. |
| Bindings.NewOppositeKeyRule | src-tauri/src/key_interceptor.rs:307-331 | An opposite-key entry starts unpressed. Its value is `result_value as u32`. It carries a mapping exactly when the record's own keycode has a `"keyboard"` or `"face_button"` remap; the type and the `as u16` value then come from that remap. Otherwise the type is `"keyboard"` with no mapping. |
| Bindings.BuildOppositeKeyStates | src-tauri/src/key_interceptor.rs:304-340 | Pass 2 holds one entry per keycode of a `"socd"` record, built from the first such record of that keycode. |
| Bindings.BuildTables | src-tauri/src/key_interceptor.rs:284-343 | Both passes finish before any table exists. The build succeeds exactly when every keycode parses, and then yields the pass 1 and pass 2 tables. Otherwise it fails at the first unparsable record. |
| Bindings.Reload | src-tauri/src/key_interceptor.rs:276-343 | A configuration that parses replaces both tables wholesale. One that does not parse leaves the installed tables as they were. |
| Bindings.KeyStateTableUnique | src-tauri/src/key_interceptor.rs:287-302 | The pass 1 description determines the remap table uniquely. |
| Bindings.OppositeTableUnique | src-tauri/src/key_interceptor.rs:304-340 | The pass 2 description determines the opposite-key table uniquely. |
| Bindings.ReloadForgetsPrevious | src-tauri/src/key_interceptor.rs:342-343 | After a successful reload, both tables depend only on the new configuration. Nothing of the old configuration survives. |
| Analog.AnalogPriorityTransform | src-tauri/src/key_interceptor.rs:392-401 | 0 maps to 0, negative n to -n, positive n to n + 32767. The result is never negative. On `i32` it overflows exactly at `i32::MIN` and above `i32::MAX - 32767`. |
| Analog.Priority | src-tauri/src/key_interceptor.rs:411 | An `i16` widened to `i32` never makes the transform overflow. |
| Analog.ZeroIsLowest | src-tauri/src/key_interceptor.rs:390-401 | Neutral ranks strictly below every non-zero value. |
| Analog.PositiveOutranksNegative | src-tauri/src/key_interceptor.rs:390-401 | Every positive `i16` ranks at least as high as every negative one. It ranks strictly higher except for `1` against `-32768`, which tie at 32768. |
| Analog.MagnitudeOrdersWithinSign | src-tauri/src/key_interceptor.rs:390-401 | Within one sign, the larger magnitude ranks strictly higher. |
| Analog.PriorityTieOnlyAtOne | src-tauri/src/key_interceptor.rs:392-401 | The only two distinct `i16` values with equal priority are `1` and `-32768`. |
| Analog.FindHigherPriority | src-tauri/src/key_interceptor.rs:403-416 | The result is one of the two arguments. A zero argument defers to the other. The result's priority is at least both arguments' priorities. An equal-priority tie favours `num1`. |
| Analog.FindHigherPriorityCommutesExceptTie | src-tauri/src/key_interceptor.rs:403-416 | Swapping the arguments changes the result exactly on the pair {1, -32768}. |
| Analog.NegativeBeatsPositiveOnTie | src-tauri/src/key_interceptor.rs:403-416 | `find_higher_priority(-32768, 1)` is `-32768`, and `find_higher_priority(1, -32768)` is `1`. |
| Analog.CorrectedPriorityIsStrict | src-tauri/src/key_interceptor.rs:390-401 | With the bias the comment intends (`i16::MAX + 1`), every positive strictly outranks every negative, priorities are injective, and the choice commutes. |
| Analog.IsExtendedKey | src-tauri/src/key_interceptor.rs:370-388 | A key is extended exactly when it is in 0x21-0x28 (page up/down, end, home, arrows), in 0x2C-0x2E (print screen, insert, delete), or is 0x90, 0xA3 or 0xA5 (num lock, right Ctrl, right Alt). |
| OverBind.KeyDown | ui/src-tauri/src/key_interceptor.rs:197-203 | On key-down, slot i's flag becomes set when `vkCode == keybinds[i]`, for slots 0 and 1 only. Slot 2 keeps its value. |
| OverBind.KeyDownIdempotent | ui/src-tauri/src/key_interceptor.rs:197-211 | The duplicated key-down block is idempotent, so running it twice is running it once. Flags only go from false to true. |
| OverBind.SelectSticks | ui/src-tauri/src/key_interceptor.rs:213-230 | Left stick X is 29000 if slot 1 is held, else -29000 if slot 0 is held, else 0 (right beats left). Right stick Y is -29000 exactly when slot 2 is held, else 0. Left stick Y and right stick X are always 0. |
| OverBind.SelectSticksFollowsPriority | ui/src-tauri/src/key_interceptor.rs:218-230 | The hard-coded axis choice equals `find_higher_priority` over each axis's bindings in slot order, and equals its corrected form too, for both the left-stick X and the right-stick Y axis. |
| OverBind.Callback | ui/src-tauri/src/key_interceptor.rs:179-244 | The callback panics exactly when there is no hook handle, or on a key-down action with fewer than 2 keybinds. A non-`HC_ACTION` call returns with the hook `default()`, leaves the flags alone, and leaves target and gamepad taken (absent). Otherwise a frame is pushed and both are put back exactly when both were present, and both are absent after any other path. On an `HC_ACTION` call the flags become `KeyDown(held, keybinds, vkCode)` for a key-down message and stay as they were for any other message, so a slot is set exactly when its bound key goes down. Held flags only grow, and slot 2 never changes. |
| OverBind.PushedFrameMatchesSticks | ui/src-tauri/src/key_interceptor.rs:232-237 | A pushed frame is the stored gamepad with only the four axis fields replaced, by the values selected from the updated flags. Buttons and triggers are kept. |
| OverBind.RunKeepsRightStickNeutral | ui/src-tauri/src/key_interceptor.rs:197-236 | Over any run of hook calls, held flags only grow and slot 2 stays false. So every pushed frame has a neutral right stick and a neutral left-stick Y axis. |
| OverBind.RunFromStartKeepsRightStickNeutral | ui/src-tauri/src/key_interceptor.rs:35 | From the all-false start of `KEY_HELD`, any run that completes leaves slot 2 unset and pushes only frames with a neutral right stick and a neutral left-stick Y axis. |
| Keymap.WebToRdev | src/constants.ts:1-109 | `WEB_TO_RDEV_KEYMAP[code]`: the table's entry for each of its 105 names, in the groups the table is written in, and `None` for every `KeyboardEvent.code` name not in the table. It carries no contract of its own; the lemmas below state its collapses, its letter and digit ranges and its renamed keys. |
| Keymap.LookupIsCaseSensitive | src/constants.ts:1-109 | Lookups compare names exactly: `KeyA` has an entry and `keya` has none. |
| Keymap.PartialNamesHaveNoKey | src/constants.ts:1-109 | The empty name has no entry, and neither has `Numpad`, although `Numpad0` does. |
| Keymap.ShiftCollapses | src/constants.ts:5-92 | `Shift` and `ShiftLeft` both map to `ShiftLeft`; `ShiftRight` keeps its name. |
| Keymap.ControlCollapses | src/constants.ts:6-94 | `Control` and `ControlLeft` both map to `ControlLeft`; `ControlRight` keeps its name. |
| Keymap.AltCollapses | src/constants.ts:7-96 | `Alt`, `AltLeft` and `AltRight` all map to `Alt`, so the table is not injective. |
| Keymap.ModKeysAreTargets | src/constants.ts:111-116 | Every member of `MOD_KEYS` is the rdev name of some browser key in the table. |
| Keymap.LettersMapToThemselves | src/constants.ts:33-58 | `KeyA` to `KeyZ` map to themselves. |
| Keymap.DigitRow | src/constants.ts:23-32 | Every digit-row code `Digit0`-`Digit9` maps to the matching `Num0`-`Num9`. |
| Keymap.KeypadDigits | src/constants.ts:62-71 | Every keypad code `Numpad0`-`Numpad9` maps to the matching `Kp0`-`Kp9`. |
| Keymap.DigitRanges | src/constants.ts:23-71 | No digit-row key shares a target name with any keypad digit, so the two ranges stay distinguishable. |
| Keymap.RenamedKeys | src/constants.ts:4-101 | The arrows are renamed from `ArrowX` to `XArrow`, `Enter` to `Return`, and `Period` to `Dot`. |

## Left out

- rdev `listen` and `simulate`, the listener thread, and the `RwLock`/`Arc`/`Lazy` statics are concurrency and I/O. This includes releasing the state lock before `simulate`. `simulate` appears only as the emitted synthetic event.
- SocdRecency.SettleAllRefines: covers only traces where each synthetic event's echo arrives before the next physical event. It does not cover a physical event that slips in between an injection and its echo.
- `println!` logging is left out, including the message at src-tauri/src/key_interceptor.rs:161, which names the wrong key. The model follows the `simulate` argument instead.
- Reading the configuration file (`get_config_path`, `File::open`) and `serde_json` decoding are file I/O. The builder takes the decoded record list, with `result_value` already an `i32`.
- Per-record logging in the builder, the `should_run` flag, and the `SHARED_STATE` bookkeeping (`is_running`, `allowed_programs`, `stop`, `is_running()`) are left out. That bookkeeping is trivial: both branches at src-tauri/src/key_interceptor.rs:348-354 are identical, and the allow-list is stored but never enforced.
- The runtime `is_pressed` / `is_virtual_pressed` fields of both tables are built as `false` and never read by any callback, so no resolver for them is modelled.
- Analog.AnalogPriorityTransform: models the debug-build panic on `i32` overflow as `None`. A release build would wrap instead. Neither happens for the `i16` arguments `find_higher_priority` passes.
- `find_higher_priority` is called nowhere in the code, so it is modelled on its own.
- Keymap.WebToRdev: names inherited from `Object.prototype` are treated as absent. In JavaScript, indexing the object literal with `constructor`, `toString`, `hasOwnProperty` or `__proto__` yields the inherited property, not `undefined`; no `KeyboardEvent.code` value has such a name, so the model returns `None` for them.
- OverBind.Callback: a panic is a `Failure`. Inside an `extern "system"` callback a panic aborts the process, so mutex poisoning is not modelled.
- The OverBind Win32 and ViGEm plumbing is FFI and is left out: hook installation, the message-only window, the `GetMessageW` loop, `Client::connect`, `plugin`, `wait_ready`, and the raw `KBDLLHOOKSTRUCT` read (modelled as a `vkCode` parameter). `target.update` is the pushed frame, and its result is ignored as in the code.
- OverBind's `start` parses `OverBind_conf.txt` line by line with `parse::<u32>`. That is file I/O; the keybind list is a parameter.
- src/App.tsx is the React interface and Tauri `invoke` calls, and is not part of this model.

## Findings

| source | as written | input that shows it | evidently intended | confidence | as-written member | corrected member |
|---|---|---|---|---|---|---|
| src-tauri/src/key_interceptor.rs:397 | positives get `n + i16::MAX`, so the positive band starts at 32768, which is where the negative band ends | `find_higher_priority(-32768, 1)` returns `-32768` (a negative value beats a positive one), and swapping the arguments returns `1` | bias `i16::MAX + 1`, so every positive outranks every negative as the comment at line 390 says, and the choice commutes | medium, not executed | Analog.NegativeBeatsPositiveOnTie | Analog.CorrectedPriorityIsStrict |

=== FILE: analog.dfy ===
/**
  The pure integer helpers at the end of src-tauri/src/key_interceptor.rs: the
  analog priority transform, the two-value priority choice built on it, and the
  Windows extended-key test.
*/
module Analog {
  import opened Wrappers
  import opened MachineInt

  /**
    `analog_priority_transform` on an `i32`: negatives rank by magnitude, positives
    above them shifted by `i16::MAX`, zero lowest. Rust's `i32` arithmetic panics
    on overflow in a debug build; `None` is that panic.
  */
  function AnalogPriorityTransform(n: I32): (r: Option<I32>)
    ensures r.None? <==> n == I32_MIN || n > I32_MAX - I16_MAX
    ensures r.Some? ==> r.value >= 0
    ensures r.Some? && n < 0 ==> r.value == -n
    ensures r.Some? && n > 0 ==> r.value == n + I16_MAX
    ensures n == 0 ==> r == Some(0)
  {
    if n < 0 then
      (if -1 * n <= I32_MAX then Some(-1 * n) else None)
    else if n > 0 then
      (if n + I16_MAX <= I32_MAX then Some(n + I16_MAX) else None)
    else
      Some(0)
  }

  /** The transform of an `i16` (widened `as i32`), which never overflows. */
  function Priority(n: I16): (p: nat)
    ensures AnalogPriorityTransform(n) == Some(p)
  {
    AnalogPriorityTransform(n).value
  }

  /** Zero ranks strictly below every other `i16`. */
  lemma ZeroIsLowest(n: I16)
    requires n != 0
    ensures Priority(0) < Priority(n)
  {
  }

  /**
    Every positive `i16` ranks at least as high as every negative one, and
    strictly higher except for `1` against `-32768`, which tie at 32768.
  */
  lemma PositiveOutranksNegative(a: I16, b: I16)
    requires a > 0 && b < 0
    ensures Priority(a) >= Priority(b)
    ensures Priority(a) == Priority(b) <==> a == 1 && b == I16_MIN
  {
  }

  /** Within one sign, the larger magnitude ranks strictly higher. */
  lemma MagnitudeOrdersWithinSign(a: I16, b: I16)
    requires (0 < a < b) || (b < a < 0)
    ensures Priority(a) < Priority(b)
  {
  }

  /** The only two distinct `i16` values with the same priority are `1` and `-32768`. */
  lemma PriorityTieOnlyAtOne(a: I16, b: I16)
    requires a != b && Priority(a) == Priority(b)
    ensures (a == 1 && b == I16_MIN) || (a == I16_MIN && b == 1)
  {
  }

  /**
    `find_higher_priority`: a zero argument defers to the other one; otherwise
    the argument of higher priority wins, `num1` on a tie.
  */
  function FindHigherPriority(num1: I16, num2: I16): (r: I16)
    ensures r == num1 || r == num2
    ensures num1 == 0 ==> r == num2
    ensures num2 == 0 ==> r == num1
    ensures Priority(r) >= Priority(num1) && Priority(r) >= Priority(num2)
    ensures num1 != 0 && Priority(num1) == Priority(num2) ==> r == num1
  {
    if num1 == 0 then num2
    else if num2 == 0 then num1
    else if Priority(num1) >= Priority(num2) then num1
    else num2
  }

  /**
    Swapping the arguments changes the answer exactly on the tie pair
    {1, -32768}: there the first argument wins, so a negative value can beat a
    positive one.
  */
  lemma FindHigherPriorityCommutesExceptTie(a: I16, b: I16)
    ensures FindHigherPriority(a, b) != FindHigherPriority(b, a) <==>
      (a == 1 && b == I16_MIN) || (a == I16_MIN && b == 1)
  {
    if a != b && a != 0 && b != 0 && Priority(a) == Priority(b) {
      PriorityTieOnlyAtOne(a, b);
    }
  }

  /** The concrete tie: `-32768` listed first beats `1`. */
  lemma NegativeBeatsPositiveOnTie()
    ensures FindHigherPriority(I16_MIN, 1) == I16_MIN
    ensures FindHigherPriority(1, I16_MIN) == 1
  {
  }

  /**
    The transform with the bias the comment above it intends: positives shifted
    by `i16::MAX + 1`, so that every positive outranks every negative.
  */
  function CorrectedPriority(n: I16): (p: nat)
    ensures n == 0 <==> p == 0
  {
    var m: int := n;
    if m < 0 then -m else if m > 0 then m + I16_MAX + 1 else 0
  }

  function CorrectedFindHigherPriority(num1: I16, num2: I16): (r: I16)
    ensures r == num1 || r == num2
    ensures num1 == 0 ==> r == num2
    ensures num2 == 0 ==> r == num1
  {
    if num1 == 0 then num2
    else if num2 == 0 then num1
    else if CorrectedPriority(num1) >= CorrectedPriority(num2) then num1
    else num2
  }

  /** With the corrected bias, positives strictly outrank negatives and the choice commutes. */
  lemma CorrectedPriorityIsStrict(a: I16, b: I16)
    ensures a > 0 && b < 0 ==> CorrectedPriority(a) > CorrectedPriority(b)
    ensures a != b ==> CorrectedPriority(a) != CorrectedPriority(b)
    ensures CorrectedFindHigherPriority(a, b) == CorrectedFindHigherPriority(b, a)
    ensures a > 0 && b < 0 ==> CorrectedFindHigherPriority(a, b) == a
  {
  }

  /** The virtual-key codes `is_extended_key` lists, in its order. */
  const ExtendedKeys: seq<U32> :=
    [0x21, 0x22, 0x23, 0x24, 0x25, 0x26, 0x27, 0x28, 0x2C, 0x2D, 0x2E, 0x90, 0xA3, 0xA5]

  /**
    `is_extended_key`: a linear search of the table. The table is the
    navigation block (page up/down, end, home, the four arrows), print screen,
    insert, delete, num lock, and the right-hand Ctrl and Alt.
  */
  method IsExtendedKey(virtualKeycode: U32) returns (r: bool)
    ensures r <==>
      || 0x21 <= virtualKeycode <= 0x28
      || 0x2C <= virtualKeycode <= 0x2E
      || virtualKeycode in {0x90, 0xA3, 0xA5}
  {
    var i := 0;
    while i < |ExtendedKeys|
      invariant i <= |ExtendedKeys|
      invariant forall j :: 0 <= j < i ==> ExtendedKeys[j] != virtualKeycode
    {
      if ExtendedKeys[i] == virtualKeycode {
        return true;
      }
      i := i + 1;
    }
    assert virtualKeycode !in ExtendedKeys;
    return false;
  }
}

=== FILE: bindings.dfy ===
/**
  The binding-table builder of `KeyInterceptor::start` in
  src-tauri/src/key_interceptor.rs: two passes over the parsed configuration
  records build the remap table (`KEY_STATES`) and the opposite-key table
  (`OPPOSITE_KEY_STATES`). Reading the file and JSON decoding are not modelled;
  the builder starts from the decoded record list.
*/
module Bindings {
  import opened Wrappers
  import opened MachineInt

  /** One decoded configuration record: a hex keycode and what it maps to. */
  datatype ConfigRecord = ConfigRecord(keycode: string, resultType: string, resultValue: I32)

  /** A remap-table entry. */
  datatype KeyState = KeyState(isPressed: bool, resultType: string, resultValue: I32)

  /** An opposite-key-table entry. */
  datatype OppositeKey = OppositeKey(
    isPressed: bool,
    isVirtualPressed: bool,
    oppositeKeyType: string,
    oppositeKeyValue: U32,
    oppositeKeyMapping: Option<U16>)

  datatype Tables = Tables(keyStates: map<U32, KeyState>, oppositeKeyStates: map<U32, OppositeKey>)

  /** A keycode that is not a hexadecimal `u32`; `index` is the first such record. */
  datatype ConfigError = InvalidHex(index: nat)

  // ----- hexadecimal keycodes (`u32::from_str_radix(s, 16)`) -----

  function HexDigit(c: char): Option<nat>
  {
    if '0' <= c <= '9' then Some(c as nat - '0' as nat)
    else if 'a' <= c <= 'f' then Some(c as nat - 'a' as nat + 10)
    else if 'A' <= c <= 'F' then Some(c as nat - 'A' as nat + 10)
    else None
  }

  predicate AllHex(ds: string)
  {
    forall i :: 0 <= i < |ds| ==> HexDigit(ds[i]).Some?
  }

  /** The value of a string of hex digits, most significant first. */
  function DigitsValue(ds: string): nat
    requires AllHex(ds)
  {
    if |ds| == 0 then 0
    else DigitsValue(ds[..|ds| - 1]) * 16 + HexDigit(ds[|ds| - 1]).value
  }

  /** The digits `from_str_radix` reads: a single leading `+` is skipped. */
  function Digits(s: string): string
  {
    if |s| > 0 && s[0] == '+' then s[1..] else s
  }

  /**
    `u32::from_str_radix(s, 16)`: an optional `+`, then at least one hex digit of
    either case, with a value that fits in 32 bits. A `-` sign is a digit error
    for an unsigned type.
  */
  function ParseHex(s: string): Option<U32>
  {
    var ds := Digits(s);
    if |ds| == 0 || !AllHex(ds) then None
    else if DigitsValue(ds) < U32_MODULUS then Some(DigitsValue(ds))
    else None
  }

  /**
    What `ParseHex` accepts: the digits after an optional `+` are non-empty, all
    hex, and their value fits in 32 bits; empty input and a leading `-` fail.
  */
  lemma ParseHexAccepts(s: string)
    ensures ParseHex(s).Some? <==>
      |Digits(s)| > 0 && AllHex(Digits(s)) && DigitsValue(Digits(s)) < U32_MODULUS
    ensures ParseHex(s).Some? ==> ParseHex(s).value == DigitsValue(Digits(s))
    ensures |s| > 0 && s[0] == '-' ==> ParseHex(s).None?
    ensures |s| == 0 ==> ParseHex(s).None?
  {
    if |s| > 0 && s[0] == '-' {
      assert Digits(s)[0] == '-';
    }
  }

  function HexChar(v: nat): (c: char)
    requires v < 16
    ensures HexDigit(c) == Some(v)
  {
    if v < 10 then ('0' as nat + v) as char else ('a' as nat + v - 10) as char
  }

  /** Lower-case hexadecimal without leading zeros (Rust's `{:x}`). */
  function ToHex(v: nat): (s: string)
    ensures |s| > 0 && AllHex(s)
    ensures s[0] != '+' && s[0] != '-'
    decreases v
  {
    if v < 16 then [HexChar(v)] else ToHex(v / 16) + [HexChar(v % 16)]
  }

  lemma {:induction false} ToHexValue(v: nat)
    ensures DigitsValue(ToHex(v)) == v
    decreases v
  {
    if v >= 16 {
      var s := ToHex(v);
      assert s[..|s| - 1] == ToHex(v / 16);
      ToHexValue(v / 16);
    }
  }

  /** Every `u32` written in hex parses back to itself, with or without a `+`. */
  lemma ParseHexRoundTrip(v: U32)
    ensures ParseHex(ToHex(v)) == Some(v)
    ensures ParseHex("+" + ToHex(v)) == Some(v)
  {
    ToHexValue(v);
    assert Digits("+" + ToHex(v)) == ToHex(v);
  }

  // ----- the two passes -----

  predicate IsSocd(r: ConfigRecord)
  {
    r.resultType == "socd"
  }

  /** The remap result types that name a key or button SOCD can stand in for. */
  predicate IsKeyTarget(resultType: string)
  {
    resultType == "keyboard" || resultType == "face_button"
  }

  /** `codes` are the parsed keycodes of the first `n` records. */
  ghost predicate CodesOf(rs: seq<ConfigRecord>, n: nat, codes: seq<U32>)
    requires n <= |rs|
  {
    |codes| == n && forall i :: 0 <= i < n ==> ParseHex(rs[i].keycode) == Some(codes[i])
  }

  ghost predicate AllParse(rs: seq<ConfigRecord>)
  {
    forall i :: 0 <= i < |rs| ==> ParseHex(rs[i].keycode).Some?
  }

  ghost function Keycodes(rs: seq<ConfigRecord>): (codes: seq<U32>)
    requires AllParse(rs)
    ensures CodesOf(rs, |rs|, codes)
  {
    seq(|rs|, i requires 0 <= i < |rs| => ParseHex(rs[i].keycode).value)
  }

  lemma KeycodesUnique(rs: seq<ConfigRecord>, codes: seq<U32>)
    requires CodesOf(rs, |rs|, codes)
    ensures AllParse(rs) && Keycodes(rs) == codes
  {
  }

  /** Record `i` is the first record of its keycode whose SOCD-ness is `socd`. */
  ghost predicate FirstOfKind(rs: seq<ConfigRecord>, codes: seq<U32>, i: nat, socd: bool)
    requires i < |rs| && i < |codes|
  {
    && IsSocd(rs[i]) == socd
    && forall j :: 0 <= j < i && IsSocd(rs[j]) == socd ==> codes[j] != codes[i]
  }

  /**
    The remap table of the first `n` records: one entry per keycode of a
    non-`"socd"` record, taken from the first such record of that keycode.
  */
  ghost predicate IsKeyStateTableUpTo(rs: seq<ConfigRecord>, codes: seq<U32>, n: nat, m: map<U32, KeyState>)
    requires n <= |rs| && n <= |codes|
  {
    && (forall k :: k in m ==> exists i :: 0 <= i < n && !IsSocd(rs[i]) && codes[i] == k)
    && (forall i :: 0 <= i < n && FirstOfKind(rs, codes, i, false) ==>
          codes[i] in m && m[codes[i]] == KeyState(false, rs[i].resultType, rs[i].resultValue))
  }

  ghost predicate IsKeyStateTable(rs: seq<ConfigRecord>, m: map<U32, KeyState>)
    requires AllParse(rs)
  {
    IsKeyStateTableUpTo(rs, Keycodes(rs), |rs|, m)
  }

  /**
    The opposite-key entry for a `"socd"` record of keycode `code` and value
    `value`. The target type and mapping come from the remap table's entry for
    the record's OWN keycode when that entry is a keyboard or face-button
    remap; otherwise the key is a plain keyboard key with no mapping.
  */
  function NewOppositeKey(keyStates: map<U32, KeyState>, code: U32, value: I32): OppositeKey
  {
    var found := code in keyStates && IsKeyTarget(keyStates[code].resultType);
    OppositeKey(
      false,
      false,
      if found then keyStates[code].resultType else "keyboard",
      AsU32(value),
      if found then Some(AsU16(keyStates[code].resultValue)) else None)
  }

  /**
    The opposite key is always a keyboard or face-button target; it carries a
    mapping exactly when the record's own keycode is remapped to one of those,
    and then the type and the truncated value come from that remap.
  */
  lemma NewOppositeKeyRule(keyStates: map<U32, KeyState>, code: U32, value: I32)
    ensures var o := NewOppositeKey(keyStates, code, value);
      && !o.isPressed && !o.isVirtualPressed
      && o.oppositeKeyValue == AsU32(value)
      && o.oppositeKeyType in {"keyboard", "face_button"}
      && (o.oppositeKeyMapping.Some? <==>
            code in keyStates && keyStates[code].resultType in {"keyboard", "face_button"})
      && (o.oppositeKeyMapping.Some? ==>
            && o.oppositeKeyType == keyStates[code].resultType
            && o.oppositeKeyMapping.value == AsU16(keyStates[code].resultValue))
      && (o.oppositeKeyMapping.None? ==> o.oppositeKeyType == "keyboard")
  {
  }

  /**
    The opposite-key table of the first `n` records: one entry per keycode of a
    `"socd"` record, built from the first such record of that keycode.
  */
  ghost predicate IsOppositeTableUpTo(
    rs: seq<ConfigRecord>, codes: seq<U32>, n: nat, keyStates: map<U32, KeyState>, m: map<U32, OppositeKey>)
    requires n <= |rs| && n <= |codes|
  {
    && (forall k :: k in m ==> exists i :: 0 <= i < n && IsSocd(rs[i]) && codes[i] == k)
    && (forall i :: 0 <= i < n && FirstOfKind(rs, codes, i, true) ==>
          codes[i] in m && m[codes[i]] == NewOppositeKey(keyStates, codes[i], rs[i].resultValue))
  }

  ghost predicate IsOppositeTable(
    rs: seq<ConfigRecord>, keyStates: map<U32, KeyState>, m: map<U32, OppositeKey>)
    requires AllParse(rs)
  {
    IsOppositeTableUpTo(rs, Keycodes(rs), |rs|, keyStates, m)
  }

  /** Pass 1 on record `n`: insert it when it is the first non-`"socd"` record of its keycode. */
  lemma KeyStateStep(rs: seq<ConfigRecord>, codes: seq<U32>, n: nat, m: map<U32, KeyState>)
    requires n < |rs| && n < |codes|
    requires IsKeyStateTableUpTo(rs, codes, n, m)
    ensures var k := codes[n];
      IsKeyStateTableUpTo(rs, codes, n + 1,
        if !IsSocd(rs[n]) && k !in m then m[k := KeyState(false, rs[n].resultType, rs[n].resultValue)] else m)
  {
    var k := codes[n];
    var m' := if !IsSocd(rs[n]) && k !in m then m[k := KeyState(false, rs[n].resultType, rs[n].resultValue)] else m;
    forall i | 0 <= i < n + 1 && FirstOfKind(rs, codes, i, false)
      ensures codes[i] in m' && m'[codes[i]] == KeyState(false, rs[i].resultType, rs[i].resultValue)
    {
      if i < n {
        assert codes[i] in m;
      }
    }
    forall key | key in m' ensures exists i :: 0 <= i < n + 1 && !IsSocd(rs[i]) && codes[i] == key {
      if key !in m {
        assert !IsSocd(rs[n]) && codes[n] == key;
      }
    }
  }

  /** Pass 2 on record `n`: insert it when it is the first `"socd"` record of its keycode. */
  lemma OppositeStep(
    rs: seq<ConfigRecord>, codes: seq<U32>, n: nat, keyStates: map<U32, KeyState>, m: map<U32, OppositeKey>)
    requires n < |rs| && n < |codes|
    requires IsOppositeTableUpTo(rs, codes, n, keyStates, m)
    ensures var k := codes[n];
      IsOppositeTableUpTo(rs, codes, n + 1, keyStates,
        if IsSocd(rs[n]) && k !in m then m[k := NewOppositeKey(keyStates, k, rs[n].resultValue)] else m)
  {
    var k := codes[n];
    var m' := if IsSocd(rs[n]) && k !in m then m[k := NewOppositeKey(keyStates, k, rs[n].resultValue)] else m;
    forall i | 0 <= i < n + 1 && FirstOfKind(rs, codes, i, true)
      ensures codes[i] in m' && m'[codes[i]] == NewOppositeKey(keyStates, codes[i], rs[i].resultValue)
    {
      if i < n {
        assert codes[i] in m;
      }
    }
    forall key | key in m' ensures exists i :: 0 <= i < n + 1 && IsSocd(rs[i]) && codes[i] == key {
      if key !in m {
        assert IsSocd(rs[n]) && codes[n] == key;
      }
    }
  }

  lemma CodesOfExtend(rs: seq<ConfigRecord>, n: nat, codes: seq<U32>, k: U32)
    requires n < |rs| && CodesOf(rs, n, codes) && ParseHex(rs[n].keycode) == Some(k)
    ensures CodesOf(rs, n + 1, codes + [k])
  {
  }

  lemma KeyStateTableDone(rs: seq<ConfigRecord>, codes: seq<U32>, m: map<U32, KeyState>)
    requires CodesOf(rs, |rs|, codes) && IsKeyStateTableUpTo(rs, codes, |rs|, m)
    ensures AllParse(rs) && IsKeyStateTable(rs, m)
  {
    KeycodesUnique(rs, codes);
  }

  /**
    Pass 1: parse every keycode (the first unparsable one aborts the build) and
    keep the first non-`"socd"` record of each keycode.
  */
  method BuildKeyStates(rs: seq<ConfigRecord>) returns (r: Result<map<U32, KeyState>, ConfigError>)
    ensures r.Success? <==> AllParse(rs)
    ensures r.Success? ==> IsKeyStateTable(rs, r.value)
    ensures r.Failure? ==>
      && r.error.index < |rs|
      && ParseHex(rs[r.error.index].keycode).None?
      && forall i :: 0 <= i < r.error.index ==> ParseHex(rs[i].keycode).Some?
  {
    var m: map<U32, KeyState> := map[];
    ghost var codes: seq<U32> := [];
    var n := 0;
    while n < |rs|
      invariant n <= |rs|
      invariant CodesOf(rs, n, codes)
      invariant IsKeyStateTableUpTo(rs, codes, n, m)
    {
      var item := rs[n];
      var parsed := ParseHex(item.keycode);
      if parsed.None? {
        return Failure(InvalidHex(n));
      }
      var keycode := parsed.value;
      CodesOfExtend(rs, n, codes, keycode);
      codes := codes + [keycode];
      KeyStateStep(rs, codes, n, m);
      if !IsSocd(item) && keycode !in m {
        m := m[keycode := KeyState(false, item.resultType, item.resultValue)];
      }
      n := n + 1;
    }
    KeyStateTableDone(rs, codes, m);
    return Success(m);
  }

  /**
    Pass 2: keep the first `"socd"` record of each keycode, with its
    `result_value` as the opposite keycode (`as u32`). Every keycode parsed in
    pass 1, so the second parse cannot fail.
  */
  method BuildOppositeKeyStates(rs: seq<ConfigRecord>, keyStates: map<U32, KeyState>)
    returns (m: map<U32, OppositeKey>)
    requires AllParse(rs)
    ensures IsOppositeTable(rs, keyStates, m)
  {
    m := map[];
    ghost var codes := Keycodes(rs);
    var n := 0;
    while n < |rs|
      invariant n <= |rs|
      invariant IsOppositeTableUpTo(rs, codes, n, keyStates, m)
    {
      var item := rs[n];
      OppositeStep(rs, codes, n, keyStates, m);
      if IsSocd(item) {
        var keycode := ParseHex(item.keycode).value;
        if keycode !in m {
          m := m[keycode := NewOppositeKey(keyStates, keycode, item.resultValue)];
        }
      }
      n := n + 1;
    }
  }

  /**
    The table build of `start`: both passes run before either table exists, so
    an unparsable keycode yields an error and no table at all.
  */
  method BuildTables(rs: seq<ConfigRecord>) returns (r: Result<Tables, ConfigError>)
    ensures r.Success? <==> AllParse(rs)
    ensures r.Success? ==>
      && IsKeyStateTable(rs, r.value.keyStates)
      && IsOppositeTable(rs, r.value.keyStates, r.value.oppositeKeyStates)
    ensures r.Failure? ==>
      && r.error.index < |rs|
      && ParseHex(rs[r.error.index].keycode).None?
      && forall i :: 0 <= i < r.error.index ==> ParseHex(rs[i].keycode).Some?
  {
    var keyStates := BuildKeyStates(rs);
    if keyStates.Failure? {
      return Failure(keyStates.error);
    }
    var opposite := BuildOppositeKeyStates(rs, keyStates.value);
    return Success(Tables(keyStates.value, opposite));
  }

  /**
    Installing a configuration: the new tables replace the old ones wholesale,
    and a failed build leaves the installed tables untouched.
  */
  method Reload(installed: Tables, rs: seq<ConfigRecord>) returns (t: Tables)
    ensures AllParse(rs) ==>
      && IsKeyStateTable(rs, t.keyStates)
      && IsOppositeTable(rs, t.keyStates, t.oppositeKeyStates)
    ensures !AllParse(rs) ==> t == installed
  {
    var r := BuildTables(rs);
    t := if r.Success? then r.value else installed;
  }

  // ----- the tables are determined by the records alone -----

  /** Every keycode of a record kind has a first record of that kind. */
  lemma {:induction false} FirstOf(rs: seq<ConfigRecord>, codes: seq<U32>, i: nat, socd: bool) returns (f: nat)
    requires i < |rs| == |codes| && IsSocd(rs[i]) == socd
    ensures f <= i && FirstOfKind(rs, codes, f, socd) && codes[f] == codes[i]
    decreases i
  {
    if FirstOfKind(rs, codes, i, socd) {
      f := i;
    } else {
      var j :| 0 <= j < i && IsSocd(rs[j]) == socd && codes[j] == codes[i];
      f := FirstOf(rs, codes, j, socd);
    }
  }

  /** Only one remap table satisfies the pass-1 description of a record list. */
  lemma KeyStateTableUnique(rs: seq<ConfigRecord>, m1: map<U32, KeyState>, m2: map<U32, KeyState>)
    requires AllParse(rs)
    requires IsKeyStateTable(rs, m1) && IsKeyStateTable(rs, m2)
    ensures m1 == m2
  {
    var codes := Keycodes(rs);
    forall k | k in m1 || k in m2 ensures k in m1 && k in m2 && m1[k] == m2[k] {
      var i :| 0 <= i < |rs| && !IsSocd(rs[i]) && codes[i] == k;
      var f := FirstOf(rs, codes, i, false);
      assert codes[f] in m1 && codes[f] in m2;
    }
  }

  /** Only one opposite-key table satisfies the pass-2 description. */
  lemma OppositeTableUnique(
    rs: seq<ConfigRecord>, keyStates: map<U32, KeyState>, m1: map<U32, OppositeKey>, m2: map<U32, OppositeKey>)
    requires AllParse(rs)
    requires IsOppositeTable(rs, keyStates, m1) && IsOppositeTable(rs, keyStates, m2)
    ensures m1 == m2
  {
    var codes := Keycodes(rs);
    forall k | k in m1 || k in m2 ensures k in m1 && k in m2 && m1[k] == m2[k] {
      var i :| 0 <= i < |rs| && IsSocd(rs[i]) && codes[i] == k;
      var f := FirstOf(rs, codes, i, true);
      var entry := NewOppositeKey(keyStates, codes[f], rs[f].resultValue);
      assert m1[k] == entry && m2[k] == entry;
    }
  }

  /**
    Reloading with a configuration that parses leaves tables that depend only on
    that configuration: nothing of the previously installed tables survives.
  */
  lemma ReloadForgetsPrevious(rs: seq<ConfigRecord>, t1: Tables, t2: Tables)
    requires AllParse(rs)
    requires IsKeyStateTable(rs, t1.keyStates) && IsOppositeTable(rs, t1.keyStates, t1.oppositeKeyStates)
    requires IsKeyStateTable(rs, t2.keyStates) && IsOppositeTable(rs, t2.keyStates, t2.oppositeKeyStates)
    ensures t1 == t2
  {
    KeyStateTableUnique(rs, t1.keyStates, t2.keyStates);
    OppositeTableUnique(rs, t1.keyStates, t1.oppositeKeyStates, t2.oppositeKeyStates);
  }
}

=== FILE: keymap.dfy ===
/**
  The browser-to-rdev key-name table of src/constants.ts: `KeyboardEvent.code`
  names on the left, rdev `Key` variant names on the right, and the set of
  modifier names the configuration screen treats specially.
*/
module Keymap {
  import opened Wrappers

  /**
    A lookup in `WEB_TO_RDEV_KEYMAP`. The table is split into the groups it is
    written in, each group one case per entry in source order. No name appears
    twice in the table, so the first group that knows a name gives the object's
    entry; a name outside the table has no rdev key (`undefined`).
  */
  function WebToRdev(code: string): Option<string>
  {
    if EditingKeys(code).Some? then EditingKeys(code)
    else if NavigationKeys(code).Some? then NavigationKeys(code)
    else if DigitRowKeys(code).Some? then DigitRowKeys(code)
    else if LetterKeys(code).Some? then LetterKeys(code)
    else if WindowsKeys(code).Some? then WindowsKeys(code)
    else if KeypadKeys(code).Some? then KeypadKeys(code)
    else if FunctionKeys(code).Some? then FunctionKeys(code)
    else if LockAndModifierKeys(code).Some? then LockAndModifierKeys(code)
    else if PunctuationKeys(code).Some? then PunctuationKeys(code)
    else None
  }

  /** The editing and control keys entries. */
  function EditingKeys(code: string): Option<string>
  {
    match code
    case "Backspace" => Some("Backspace")
    case "Tab" => Some("Tab")
    case "Enter" => Some("Return")
    case "Shift" => Some("ShiftLeft")
    case "Control" => Some("ControlLeft")
    case "Alt" => Some("Alt")
    case "Pause" => Some("Pause")
    case "CapsLock" => Some("CapsLock")
    case "Escape" => Some("Escape")
    case "Space" => Some("Space")
    case _ => None
  }

  /** The navigation block entries. */
  function NavigationKeys(code: string): Option<string>
  {
    match code
    case "PageUp" => Some("PageUp")
    case "PageDown" => Some("PageDown")
    case "End" => Some("End")
    case "Home" => Some("Home")
    case "ArrowLeft" => Some("LeftArrow")
    case "ArrowUp" => Some("UpArrow")
    case "ArrowRight" => Some("RightArrow")
    case "ArrowDown" => Some("DownArrow")
    case "PrintScreen" => Some("PrintScreen")
    case "Insert" => Some("Insert")
    case "Delete" => Some("Delete")
    case _ => None
  }

  /** The digit row entries. */
  function DigitRowKeys(code: string): Option<string>
  {
    match code
    case "Digit0" => Some("Num0")
    case "Digit1" => Some("Num1")
    case "Digit2" => Some("Num2")
    case "Digit3" => Some("Num3")
    case "Digit4" => Some("Num4")
    case "Digit5" => Some("Num5")
    case "Digit6" => Some("Num6")
    case "Digit7" => Some("Num7")
    case "Digit8" => Some("Num8")
    case "Digit9" => Some("Num9")
    case _ => None
  }

  /** The letters entries. */
  function LetterKeys(code: string): Option<string>
  {
    match code
    case "KeyA" => Some("KeyA")
    case "KeyB" => Some("KeyB")
    case "KeyC" => Some("KeyC")
    case "KeyD" => Some("KeyD")
    case "KeyE" => Some("KeyE")
    case "KeyF" => Some("KeyF")
    case "KeyG" => Some("KeyG")
    case "KeyH" => Some("KeyH")
    case "KeyI" => Some("KeyI")
    case "KeyJ" => Some("KeyJ")
    case "KeyK" => Some("KeyK")
    case "KeyL" => Some("KeyL")
    case "KeyM" => Some("KeyM")
    case "KeyN" => Some("KeyN")
    case "KeyO" => Some("KeyO")
    case "KeyP" => Some("KeyP")
    case "KeyQ" => Some("KeyQ")
    case "KeyR" => Some("KeyR")
    case "KeyS" => Some("KeyS")
    case "KeyT" => Some("KeyT")
    case "KeyU" => Some("KeyU")
    case "KeyV" => Some("KeyV")
    case "KeyW" => Some("KeyW")
    case "KeyX" => Some("KeyX")
    case "KeyY" => Some("KeyY")
    case "KeyZ" => Some("KeyZ")
    case _ => None
  }

  /** The Windows keys entries. */
  function WindowsKeys(code: string): Option<string>
  {
    match code
    case "MetaLeft" => Some("MetaLeft")
    case "MetaRight" => Some("MetaRight")
    case _ => None
  }

  /** The numeric keypad entries. */
  function KeypadKeys(code: string): Option<string>
  {
    match code
    case "Numpad0" => Some("Kp0")
    case "Numpad1" => Some("Kp1")
    case "Numpad2" => Some("Kp2")
    case "Numpad3" => Some("Kp3")
    case "Numpad4" => Some("Kp4")
    case "Numpad5" => Some("Kp5")
    case "Numpad6" => Some("Kp6")
    case "Numpad7" => Some("Kp7")
    case "Numpad8" => Some("Kp8")
    case "Numpad9" => Some("Kp9")
    case "Multiply" => Some("KpMultiply")
    case "Add" => Some("KpPlus")
    case "Subtract" => Some("KpMinus")
    case "Decimal" => Some("KpDelete")
    case "Divide" => Some("KpDivide")
    case _ => None
  }

  /** The function keys entries. */
  function FunctionKeys(code: string): Option<string>
  {
    match code
    case "F1" => Some("F1")
    case "F2" => Some("F2")
    case "F3" => Some("F3")
    case "F4" => Some("F4")
    case "F5" => Some("F5")
    case "F6" => Some("F6")
    case "F7" => Some("F7")
    case "F8" => Some("F8")
    case "F9" => Some("F9")
    case "F10" => Some("F10")
    case "F11" => Some("F11")
    case "F12" => Some("F12")
    case _ => None
  }

  /** The lock and modifier keys entries. */
  function LockAndModifierKeys(code: string): Option<string>
  {
    match code
    case "NumLock" => Some("NumLock")
    case "ScrollLock" => Some("ScrollLock")
    case "ShiftLeft" => Some("ShiftLeft")
    case "ShiftRight" => Some("ShiftRight")
    case "ControlLeft" => Some("ControlLeft")
    case "ControlRight" => Some("ControlRight")
    case "AltLeft" => Some("Alt")
    case "AltRight" => Some("Alt")
    case _ => None
  }

  /** The punctuation entries. */
  function PunctuationKeys(code: string): Option<string>
  {
    match code
    case "Semicolon" => Some("SemiColon")
    case "Equal" => Some("Equal")
    case "Comma" => Some("Comma")
    case "Minus" => Some("Minus")
    case "Period" => Some("Dot")
    case "Slash" => Some("Slash")
    case "Backquote" => Some("BackQuote")
    case "BracketLeft" => Some("LeftBracket")
    case "Backslash" => Some("BackSlash")
    case "BracketRight" => Some("RightBracket")
    case "Quote" => Some("Quote")
    case _ => None
  }

  /** Names are matched exactly: a lower-case spelling of an entry is not in the table. */
  lemma LookupIsCaseSensitive()
    ensures WebToRdev("KeyA").Some? && WebToRdev("keya").None?
  {
  }

  /** Neither the empty name nor a bare prefix of the keypad entries is in the table. */
  lemma PartialNamesHaveNoKey()
    ensures WebToRdev("").None?
    ensures WebToRdev("Numpad0").Some? && WebToRdev("Numpad").None?
  {
  }

  /** `MOD_KEYS`. */
  const ModKeys: set<string> := {"Alt", "ControlLeft", "ShiftLeft", "MetaLeft"}

  /** No two distinct names share a target. */
  ghost predicate Injective(lookup: string -> Option<string>)
  {
    forall a, b :: a != b && lookup(a).Some? ==> lookup(a) != lookup(b)
  }

  /** `Shift` and `ShiftLeft` both become `ShiftLeft`; `ShiftRight` keeps its name. */
  lemma ShiftCollapses()
    ensures WebToRdev("Shift") == WebToRdev("ShiftLeft") == Some("ShiftLeft")
    ensures WebToRdev("ShiftRight") == Some("ShiftRight")
  {
  }

  /** `Control` and `ControlLeft` both become `ControlLeft`; `ControlRight` keeps its name. */
  lemma ControlCollapses()
    ensures WebToRdev("Control") == WebToRdev("ControlLeft") == Some("ControlLeft")
    ensures WebToRdev("ControlRight") == Some("ControlRight")
  {
  }

  /** `Alt`, `AltLeft` and `AltRight` all become `Alt`, so the table is not injective. */
  lemma AltCollapses()
    ensures WebToRdev("Alt") == WebToRdev("AltLeft") == WebToRdev("AltRight") == Some("Alt")
    ensures !Injective(WebToRdev)
  {
    assert "AltLeft" != "AltRight";
  }

  /** Every modifier name is the rdev name of some browser key. */
  lemma ModKeysAreTargets()
    ensures forall m :: m in ModKeys ==> exists code :: WebToRdev(code) == Some(m)
  {
    assert WebToRdev("Alt") == Some("Alt");
    assert WebToRdev("Control") == Some("ControlLeft");
    assert WebToRdev("Shift") == Some("ShiftLeft");
    assert WebToRdev("MetaLeft") == Some("MetaLeft");
  }

  /** `KeyA` to `KeyZ` keep their names. */
  lemma LettersMapToThemselves()
    ensures forall c :: 'A' <= c <= 'Z' ==> WebToRdev("Key" + [c]) == Some("Key" + [c])
  {
    forall c | 'A' <= c <= 'Z'
      ensures WebToRdev("Key" + [c]) == Some("Key" + [c])
    {
      match c {
        case 'A' => assert "Key" + [c] == "KeyA";
        case 'B' => assert "Key" + [c] == "KeyB";
        case 'C' => assert "Key" + [c] == "KeyC";
        case 'D' => assert "Key" + [c] == "KeyD";
        case 'E' => assert "Key" + [c] == "KeyE";
        case 'F' => assert "Key" + [c] == "KeyF";
        case 'G' => assert "Key" + [c] == "KeyG";
        case 'H' => assert "Key" + [c] == "KeyH";
        case 'I' => assert "Key" + [c] == "KeyI";
        case 'J' => assert "Key" + [c] == "KeyJ";
        case 'K' => assert "Key" + [c] == "KeyK";
        case 'L' => assert "Key" + [c] == "KeyL";
        case 'M' => assert "Key" + [c] == "KeyM";
        case 'N' => assert "Key" + [c] == "KeyN";
        case 'O' => assert "Key" + [c] == "KeyO";
        case 'P' => assert "Key" + [c] == "KeyP";
        case 'Q' => assert "Key" + [c] == "KeyQ";
        case 'R' => assert "Key" + [c] == "KeyR";
        case 'S' => assert "Key" + [c] == "KeyS";
        case 'T' => assert "Key" + [c] == "KeyT";
        case 'U' => assert "Key" + [c] == "KeyU";
        case 'V' => assert "Key" + [c] == "KeyV";
        case 'W' => assert "Key" + [c] == "KeyW";
        case 'X' => assert "Key" + [c] == "KeyX";
        case 'Y' => assert "Key" + [c] == "KeyY";
        case 'Z' => assert "Key" + [c] == "KeyZ";
        case _ => assert false;
      }
    }
  }

  /** The digit row `Digit0` to `Digit9` becomes `Num0` to `Num9`. */
  lemma DigitRow()
    ensures forall d :: '0' <= d <= '9' ==> WebToRdev("Digit" + [d]) == Some("Num" + [d])
  {
    forall d | '0' <= d <= '9'
      ensures WebToRdev("Digit" + [d]) == Some("Num" + [d])
    {
      match d {
        case '0' => assert "Digit" + [d] == "Digit0" && "Num" + [d] == "Num0";
        case '1' => assert "Digit" + [d] == "Digit1" && "Num" + [d] == "Num1";
        case '2' => assert "Digit" + [d] == "Digit2" && "Num" + [d] == "Num2";
        case '3' => assert "Digit" + [d] == "Digit3" && "Num" + [d] == "Num3";
        case '4' => assert "Digit" + [d] == "Digit4" && "Num" + [d] == "Num4";
        case '5' => assert "Digit" + [d] == "Digit5" && "Num" + [d] == "Num5";
        case '6' => assert "Digit" + [d] == "Digit6" && "Num" + [d] == "Num6";
        case '7' => assert "Digit" + [d] == "Digit7" && "Num" + [d] == "Num7";
        case '8' => assert "Digit" + [d] == "Digit8" && "Num" + [d] == "Num8";
        case '9' => assert "Digit" + [d] == "Digit9" && "Num" + [d] == "Num9";
        case _ => assert false;
      }
    }
  }

  /** The keypad digits `Numpad0` to `Numpad9` become `Kp0` to `Kp9`. */
  lemma KeypadDigits()
    ensures forall d :: '0' <= d <= '9' ==> WebToRdev("Numpad" + [d]) == Some("Kp" + [d])
  {
    forall d | '0' <= d <= '9'
      ensures WebToRdev("Numpad" + [d]) == Some("Kp" + [d])
    {
      match d {
        case '0' => assert "Numpad" + [d] == "Numpad0" && "Kp" + [d] == "Kp0";
        case '1' => assert "Numpad" + [d] == "Numpad1" && "Kp" + [d] == "Kp1";
        case '2' => assert "Numpad" + [d] == "Numpad2" && "Kp" + [d] == "Kp2";
        case '3' => assert "Numpad" + [d] == "Numpad3" && "Kp" + [d] == "Kp3";
        case '4' => assert "Numpad" + [d] == "Numpad4" && "Kp" + [d] == "Kp4";
        case '5' => assert "Numpad" + [d] == "Numpad5" && "Kp" + [d] == "Kp5";
        case '6' => assert "Numpad" + [d] == "Numpad6" && "Kp" + [d] == "Kp6";
        case '7' => assert "Numpad" + [d] == "Numpad7" && "Kp" + [d] == "Kp7";
        case '8' => assert "Numpad" + [d] == "Numpad8" && "Kp" + [d] == "Kp8";
        case '9' => assert "Numpad" + [d] == "Numpad9" && "Kp" + [d] == "Kp9";
        case _ => assert false;
      }
    }
  }

  /** The digit row and the keypad digits never share a target name. */
  lemma DigitRanges()
    ensures forall d, e :: '0' <= d <= '9' && '0' <= e <= '9' ==>
      WebToRdev("Digit" + [d]) != WebToRdev("Numpad" + [e])
  {
    DigitRow();
    KeypadDigits();
    forall d, e | '0' <= d <= '9' && '0' <= e <= '9'
      ensures WebToRdev("Digit" + [d]) != WebToRdev("Numpad" + [e])
    {
      assert ("Num" + [d])[0] != ("Kp" + [e])[0];
    }
  }

  /** The arrow keys are renamed `ArrowX` to `XArrow`, `Enter` to `Return` and `Period` to `Dot`. */
  lemma RenamedKeys()
    ensures WebToRdev("ArrowLeft") == Some("LeftArrow")
    ensures WebToRdev("ArrowUp") == Some("UpArrow")
    ensures WebToRdev("ArrowRight") == Some("RightArrow")
    ensures WebToRdev("ArrowDown") == Some("DownArrow")
    ensures WebToRdev("Period") == Some("Dot")
    ensures WebToRdev("Enter") == Some("Return")
  {
  }
}

=== FILE: machine_int.dfy ===
/** Fixed-width integers of the Rust source and the casts between them. */
module MachineInt {

  const I16_MIN: int := -0x8000
  const I16_MAX: int := 0x7FFF
  const I32_MIN: int := -0x8000_0000
  const I32_MAX: int := 0x7FFF_FFFF
  const U16_MODULUS: int := 0x1_0000
  const U32_MODULUS: int := 0x1_0000_0000

  type U8 = x: int | 0 <= x < 0x100
  type I16 = x: int | I16_MIN <= x <= I16_MAX
  type I32 = x: int | I32_MIN <= x <= I32_MAX
  type U16 = x: int | 0 <= x < U16_MODULUS
  type U32 = x: int | 0 <= x < U32_MODULUS

  /** Rust `v as u32` for an `i32`: reinterprets the two's-complement bits. */
  function AsU32(v: I32): (r: U32)
    ensures (r - v) % U32_MODULUS == 0
    ensures v >= 0 ==> r == v
    ensures v < 0 ==> r >= 0x8000_0000
  {
    if v < 0 then v + U32_MODULUS else v
  }

  /** Rust `v as u16` for an `i32`: keeps the low 16 bits. */
  function AsU16(v: I32): (r: U16)
    ensures (r - v) % U16_MODULUS == 0
    ensures 0 <= v < U16_MODULUS ==> r == v
  {
    v % U16_MODULUS
  }
}

=== FILE: overbind.dfy ===
/**
  The low-level keyboard hook of the OverBind variant in
  ui/src-tauri/src/key_interceptor.rs, with the Win32 and ViGEm calls taken
  out: a key-down sets "held" flags for the configured virtual-key codes, the
  flags select the four stick axes, and the shared virtual controller and
  gamepad are taken out of the shared state, updated, and put back.
*/
module OverBind {
  import opened Wrappers
  import opened MachineInt
  import Analog

  const STICK_NEUTRAL: I16 := 0
  const STICK_LEFT: I16 := -29000
  const STICK_RIGHT: I16 := 29000
  const STICK_UP: I16 := -29000
  const STICK_DOWN: I16 := 29000
  const KEYBIND_LEFT_STICK_LEFT: nat := 0
  const KEYBIND_LEFT_STICK_RIGHT: nat := 1
  const KEYBIND_RIGHT_STICK_UP: nat := 2

  /** Win32 `HC_ACTION` and `WM_KEYDOWN`. */
  const HC_ACTION: int := 0
  const WM_KEYDOWN: nat := 0x0100

  /** `KEY_HELD`: one flag per keybind slot, all false at start. */
  type Held = h: seq<bool> | |h| == 3 witness [false, false, false]

  const NoneHeld: Held := [false, false, false]

  /** The fields of ViGEm's `XGamepad`. */
  datatype Gamepad = Gamepad(
    buttons: U16,
    leftTrigger: U8,
    rightTrigger: U8,
    thumbLx: I16,
    thumbLy: I16,
    thumbRx: I16,
    thumbRy: I16)

  /** Opaque handles: the virtual controller target and the installed hook. */
  datatype Target = Target(id: nat)
  datatype Hook = Hook(id: nat)

  datatype SharedState = SharedState(target: Option<Target>, gamepad: Option<Gamepad>, hookHandle: Option<Hook>)

  /** The hook handle passed on to `CallNextHookEx`. */
  datatype NextHook = DefaultHook | InstalledHook(hook: Hook)

  /** The four stick axis values of one callback. */
  datatype Sticks = Sticks(leftX: I16, leftY: I16, rightX: I16, rightY: I16)

  /** What one callback leaves behind, and the controller update it pushed, if any. */
  datatype Outcome = Outcome(held: Held, shared: SharedState, pushed: Option<(Target, Gamepad)>, next: NextHook)

  /** The panics of the callback (inside an `extern "system"` function they abort). */
  datatype Panic = NoHookHandle | KeybindIndexOutOfRange(index: nat)

  /**
    One key-down block: for slots 0 and 1 only, a matching virtual-key code sets
    the slot's flag. Slot 2 is never looked at.
  */
  function KeyDown(held: Held, keybinds: seq<U32>, vkCode: U32): (h: Held)
    requires |keybinds| >= 2
    ensures forall i :: 0 <= i < 2 ==> (h[i] <==> held[i] || vkCode == keybinds[i])
    ensures h[KEYBIND_RIGHT_STICK_UP] == held[KEYBIND_RIGHT_STICK_UP]
  {
    [held[0] || vkCode == keybinds[0], held[1] || vkCode == keybinds[1], held[2]]
  }

  /** Flags only ever go from false to true. */
  predicate HeldGrows(before: Held, after: Held)
  {
    forall i :: 0 <= i < 3 ==> before[i] ==> after[i]
  }

  /** The key-down block is idempotent, so running it twice is running it once. */
  lemma KeyDownIdempotent(held: Held, keybinds: seq<U32>, vkCode: U32)
    requires |keybinds| >= 2
    ensures KeyDown(KeyDown(held, keybinds, vkCode), keybinds, vkCode) == KeyDown(held, keybinds, vkCode)
    ensures HeldGrows(held, KeyDown(held, keybinds, vkCode))
  {
  }

  /**
    The axis selection: the right flag beats the left one on the left stick's X
    axis, the right stick's Y axis follows slot 2, and the other two axes stay
    neutral.
  */
  function SelectSticks(held: Held): (s: Sticks)
    ensures s.leftX == (if held[1] then 29000 else if held[0] then -29000 else 0)
    ensures s.rightY == -29000 <==> held[2]
    ensures !held[2] ==> s.rightY == 0
    ensures s.leftY == 0 && s.rightX == 0
  {
    var leftX :=
      if held[KEYBIND_LEFT_STICK_RIGHT] then STICK_RIGHT
      else if held[KEYBIND_LEFT_STICK_LEFT] then STICK_LEFT
      else STICK_NEUTRAL;
    var rightY := if held[KEYBIND_RIGHT_STICK_UP] then STICK_UP else STICK_NEUTRAL;
    Sticks(leftX, STICK_NEUTRAL, STICK_NEUTRAL, rightY)
  }

  /** The value one binding contributes to its axis: its magnitude when held, else neutral. */
  function Contribution(held: bool, magnitude: I16): I16
  {
    if held then magnitude else STICK_NEUTRAL
  }

  /**
    The hard-coded selection agrees with the general priority rule of
    `find_higher_priority` (and its corrected form) applied to the bindings of
    each axis in slot order: positive beats negative, nothing held is neutral.
  */
  lemma SelectSticksFollowsPriority(held: Held)
    ensures var s := SelectSticks(held);
      var left := Contribution(held[KEYBIND_LEFT_STICK_LEFT], STICK_LEFT);
      var right := Contribution(held[KEYBIND_LEFT_STICK_RIGHT], STICK_RIGHT);
      var up := Contribution(held[KEYBIND_RIGHT_STICK_UP], STICK_UP);
      && s.leftX == Analog.FindHigherPriority(left, right)
      && s.leftX == Analog.CorrectedFindHigherPriority(left, right)
      && s.rightY == Analog.FindHigherPriority(STICK_NEUTRAL, up)
      && s.rightY == Analog.CorrectedFindHigherPriority(STICK_NEUTRAL, up)
  {
    var left := Contribution(held[KEYBIND_LEFT_STICK_LEFT], STICK_LEFT);
    var right := Contribution(held[KEYBIND_LEFT_STICK_RIGHT], STICK_RIGHT);
    if held[0] && held[1] {
      assert Analog.Priority(right) > Analog.Priority(left);
    }
  }

  /**
    `low_level_keyboard_proc_callback` with the hook event reduced to its code,
    message and virtual-key code. Target and gamepad are taken out of the shared
    state first; they are put back only when both were present, so every other
    path leaves both absent.
  */
  function Callback(nCode: int, wParam: nat, vkCode: U32, keybinds: seq<U32>, held: Held, shared: SharedState)
    : (r: Result<Outcome, Panic>)
    ensures r.Failure? <==>
      shared.hookHandle.None? || (nCode == HC_ACTION && wParam % U32_MODULUS == WM_KEYDOWN && |keybinds| < 2)
    ensures r.Success? ==>
      r.value.next == (if nCode == HC_ACTION then InstalledHook(shared.hookHandle.value) else DefaultHook)
    ensures r.Success? && nCode != HC_ACTION ==>
      && r.value.held == held
      && r.value.pushed.None?
      && r.value.shared == SharedState(None, None, shared.hookHandle)
    ensures r.Success? && nCode == HC_ACTION ==>
      && (r.value.pushed.Some? <==> shared.target.Some? && shared.gamepad.Some?)
      && (r.value.pushed.Some? ==>
            && r.value.pushed.value.0 == shared.target.value
            && r.value.shared.target == shared.target
            && r.value.shared.gamepad == Some(r.value.pushed.value.1))
      && (r.value.pushed.None? ==> r.value.shared.target.None? && r.value.shared.gamepad.None?)
      && r.value.shared.hookHandle == shared.hookHandle
    ensures r.Success? && nCode == HC_ACTION ==>
      r.value.held == (if wParam % U32_MODULUS == WM_KEYDOWN then KeyDown(held, keybinds, vkCode) else held)
    ensures r.Success? ==> HeldGrows(held, r.value.held)
    ensures r.Success? ==> r.value.held[KEYBIND_RIGHT_STICK_UP] == held[KEYBIND_RIGHT_STICK_UP]
  {
    var tempTarget := shared.target;
    var tempGamepad := shared.gamepad;
    var taken := shared.(target := None, gamepad := None);
    if shared.hookHandle.None? then
      Failure(NoHookHandle)
    else if nCode != HC_ACTION then
      Success(Outcome(held, taken, None, DefaultHook))
    else if wParam % U32_MODULUS == WM_KEYDOWN && |keybinds| < 2 then
      Failure(KeybindIndexOutOfRange(|keybinds|))
    else
      var held1 :=
        if wParam % U32_MODULUS == WM_KEYDOWN
        then KeyDown(KeyDown(held, keybinds, vkCode), keybinds, vkCode)
        else held;
      var sticks := SelectSticks(held1);
      var next := InstalledHook(shared.hookHandle.value);
      if tempTarget.Some? && tempGamepad.Some? then
        var gamepad := tempGamepad.value.(
          thumbLx := sticks.leftX, thumbLy := sticks.leftY,
          thumbRx := sticks.rightX, thumbRy := sticks.rightY);
        Success(Outcome(held1, taken.(target := tempTarget, gamepad := Some(gamepad)),
                        Some((tempTarget.value, gamepad)), next))
      else
        Success(Outcome(held1, taken, None, next))
  }

  /**
    Every pushed frame is the stored gamepad with only its four axis values
    replaced by those its held flags select.
  */
  lemma PushedFrameMatchesSticks(
    nCode: int, wParam: nat, vkCode: U32, keybinds: seq<U32>, held: Held, shared: SharedState)
    requires Callback(nCode, wParam, vkCode, keybinds, held, shared).Success?
    requires Callback(nCode, wParam, vkCode, keybinds, held, shared).value.pushed.Some?
    ensures var o := Callback(nCode, wParam, vkCode, keybinds, held, shared).value;
      var s := SelectSticks(o.held);
      o.pushed.value.1 == shared.gamepad.value.(
        thumbLx := s.leftX, thumbLy := s.leftY, thumbRx := s.rightX, thumbRy := s.rightY)
  {
  }

  /** One hook invocation: code, message and virtual-key code. */
  datatype HookCall = HookCall(nCode: int, wParam: nat, vkCode: U32)

  /** Run the hook over a sequence of invocations, collecting pushed gamepad frames; a panic ends the run. */
  function Run(keybinds: seq<U32>, held: Held, shared: SharedState, calls: seq<HookCall>)
    : Result<(Held, SharedState, seq<Gamepad>), Panic>
    decreases |calls|
  {
    if |calls| == 0 then Success((held, shared, []))
    else
      var c := calls[0];
      match Callback(c.nCode, c.wParam, c.vkCode, keybinds, held, shared)
      case Failure(p) => Failure(p)
      case Success(o) =>
        match Run(keybinds, o.held, o.shared, calls[1..])
        case Failure(p) => Failure(p)
        case Success(rest) =>
          Success((rest.0, rest.1, (if o.pushed.Some? then [o.pushed.value.1] else []) + rest.2))
  }

  /**
    Over any run the held flags only grow, slot 2 keeps its starting value, and
    so from the all-false start the right stick never leaves neutral: every
    pushed frame has a neutral right stick and a neutral left-stick Y axis.
  */
  lemma {:induction false} RunKeepsRightStickNeutral(
    keybinds: seq<U32>, held: Held, shared: SharedState, calls: seq<HookCall>)
    requires !held[KEYBIND_RIGHT_STICK_UP]
    requires Run(keybinds, held, shared, calls).Success?
    ensures var r := Run(keybinds, held, shared, calls).value;
      && HeldGrows(held, r.0)
      && !r.0[KEYBIND_RIGHT_STICK_UP]
      && forall g :: g in r.2 ==> g.thumbRy == 0 && g.thumbRx == 0 && g.thumbLy == 0
    decreases |calls|
  {
    if |calls| > 0 {
      var c := calls[0];
      var o := Callback(c.nCode, c.wParam, c.vkCode, keybinds, held, shared).value;
      if o.pushed.Some? {
        PushedFrameMatchesSticks(c.nCode, c.wParam, c.vkCode, keybinds, held, shared);
      }
      RunKeepsRightStickNeutral(keybinds, o.held, o.shared, calls[1..]);
    }
  }

  /**
    From the `[false; 3]` start of `KEY_HELD`, no run that completes ever holds
    slot 2 or pushes a frame with the right stick or the left-stick Y axis off
    neutral.
  */
  lemma RunFromStartKeepsRightStickNeutral(keybinds: seq<U32>, shared: SharedState, calls: seq<HookCall>)
    requires Run(keybinds, NoneHeld, shared, calls).Success?
    ensures var r := Run(keybinds, NoneHeld, shared, calls).value;
      && !r.0[KEYBIND_RIGHT_STICK_UP]
      && forall g :: g in r.2 ==> g.thumbRy == 0 && g.thumbRx == 0 && g.thumbLy == 0
  {
    RunKeepsRightStickNeutral(keybinds, NoneHeld, shared, calls);
  }
}

=== FILE: socd.dfy ===
/**
  The hard-coded SOCD (simultaneous opposite cardinal direction) machine of the
  rdev listener in src-tauri/src/key_interceptor.rs.

  Four directions each hold one `OpposedKeyState`; left/right and up/down are the
  opposed pairs. A physical press or release updates the states and may ask rdev
  to `simulate` one press or release of the opposite key. Here that side effect is
  the `emitted` part of a `Step`, so the listener is a pure step function.
*/
module Socd {
  import opened Wrappers

  datatype OpposedKeyState = Released | OpposedSeen | OpposedFresh | Pressed

  datatype Dir = Left | Right | Up | Down

  /** The rdev keys the listener distinguishes; every other key is `Other`. */
  datatype Key = KeyA | KeyE | Comma | KeyO | Other(name: string)

  /** rdev events: key presses, key releases, and everything else (mouse, wheel). */
  datatype Event = KeyPress(key: Key) | KeyRelease(key: Key) | NonKeyEvent

  /** An event the listener asks rdev to synthesize. */
  datatype Synthetic = SimulatePress(key: Key) | SimulateRelease(key: Key)

  datatype OpposedKeysState = OpposedKeysState(
    left: OpposedKeyState,
    right: OpposedKeyState,
    up: OpposedKeyState,
    down: OpposedKeyState)

  /** The state after one callback and the synthetic event it emitted, if any. */
  datatype Step = Step(state: OpposedKeysState, emitted: Option<Synthetic>)

  const Initial := OpposedKeysState(Released, Released, Released, Released)

  function Opposite(d: Dir): (o: Dir)
    ensures o != d
  {
    match d
    case Left => Right
    case Right => Left
    case Up => Down
    case Down => Up
  }

  /** The physical key bound to each direction (a Dvorak-style layout). */
  function KeyOf(d: Dir): Key
  {
    match d
    case Left => KeyA
    case Right => KeyE
    case Up => Comma
    case Down => KeyO
  }

  function DirOf(k: Key): (r: Option<Dir>)
    ensures r.Some? ==> KeyOf(r.value) == k
    ensures r.None? ==> forall d: Dir :: KeyOf(d) != k
  {
    match k
    case KeyA => Some(Left)
    case KeyE => Some(Right)
    case Comma => Some(Up)
    case KeyO => Some(Down)
    case Other(_) => None
  }

  function Get(s: OpposedKeysState, d: Dir): OpposedKeyState
  {
    match d
    case Left => s.left
    case Right => s.right
    case Up => s.up
    case Down => s.down
  }

  function Set(s: OpposedKeysState, d: Dir, v: OpposedKeyState): (r: OpposedKeysState)
    ensures Get(r, d) == v
    ensures forall e: Dir :: e != d ==> Get(r, e) == Get(s, e)
  {
    match d
    case Left => s.(left := v)
    case Right => s.(right := v)
    case Up => s.(up := v)
    case Down => s.(down := v)
  }

  /** Same opposed pair (a direction is in its own pair). */
  predicate SamePair(d: Dir, e: Dir)
  {
    e == d || e == Opposite(d)
  }

  /**
    Key press of the key bound to `d`: the key is set to `Pressed` first; if it was
    already `Pressed` the callback returns (this also swallows the echo of a
    synthetic press); otherwise a `Pressed` opposite is demoted to `OpposedFresh`
    and a release of the opposite key is simulated.
  */
  function OnPress(s: OpposedKeysState, d: Dir): (r: Step)
    ensures Get(s, d) == Pressed ==> r == Step(s, None)
    ensures Get(r.state, d) == Pressed
    ensures Get(s, d) != Pressed && Get(s, Opposite(d)) == Pressed ==>
      && Get(r.state, Opposite(d)) == OpposedFresh
      && r.emitted == Some(SimulateRelease(KeyOf(Opposite(d))))
    ensures Get(s, d) == Pressed || Get(s, Opposite(d)) != Pressed ==>
      && Get(r.state, Opposite(d)) == Get(s, Opposite(d))
      && r.emitted == None
    ensures forall e: Dir :: !SamePair(d, e) ==> Get(r.state, e) == Get(s, e)
  {
    var prev := Get(s, d);
    var s1 := Set(s, d, Pressed);
    if prev == Pressed then
      Step(s1, None)
    else
      match Get(s1, Opposite(d))
      case Pressed =>
        Step(Set(s1, Opposite(d), OpposedFresh), Some(SimulateRelease(KeyOf(Opposite(d)))))
      case _ =>
        Step(s1, None)
  }

  /** How a key's own state moves when that key is released. */
  function ReleaseOwn(v: OpposedKeyState): (r: OpposedKeyState)
    ensures r != Pressed && r != OpposedFresh
    ensures r == OpposedSeen <==> v == OpposedFresh
  {
    match v
    case Released => Released
    case OpposedSeen => Released
    case OpposedFresh => OpposedSeen
    case Pressed => Released
  }

  /**
    Key release of the key bound to `d`: the key's own state steps by `ReleaseOwn`;
    an opposite that was overridden (`OpposedFresh` or `OpposedSeen`) is restored
    to `Pressed` and a press of it is simulated.
  */
  function OnRelease(s: OpposedKeysState, d: Dir): (r: Step)
    ensures Get(r.state, d) == ReleaseOwn(Get(s, d))
    ensures Get(s, Opposite(d)) in {OpposedFresh, OpposedSeen} ==>
      && Get(r.state, Opposite(d)) == Pressed
      && r.emitted == Some(SimulatePress(KeyOf(Opposite(d))))
    ensures Get(s, Opposite(d)) in {Released, Pressed} ==>
      && Get(r.state, Opposite(d)) == Get(s, Opposite(d))
      && r.emitted == None
    ensures forall e: Dir :: !SamePair(d, e) ==> Get(r.state, e) == Get(s, e)
  {
    var s1 := Set(s, d, ReleaseOwn(Get(s, d)));
    match Get(s1, Opposite(d))
    case Released => Step(s1, None)
    case Pressed => Step(s1, None)
    case _ => Step(Set(s1, Opposite(d), Pressed), Some(SimulatePress(KeyOf(Opposite(d)))))
  }

  /** The listener callback: dispatch on event type and key. */
  function Callback(s: OpposedKeysState, e: Event): (r: Step)
    ensures e.NonKeyEvent? || DirOf(e.key).None? ==> r == Step(s, None)
    ensures e.KeyPress? && DirOf(e.key).Some? ==> r == OnPress(s, DirOf(e.key).value)
    ensures e.KeyRelease? && DirOf(e.key).Some? ==> r == OnRelease(s, DirOf(e.key).value)
  {
    match e
    case KeyPress(k) =>
      (match DirOf(k)
       case Some(d) => OnPress(s, d)
       case None => Step(s, None))
    case KeyRelease(k) =>
      (match DirOf(k)
       case Some(d) => OnRelease(s, d)
       case None => Step(s, None))
    case NonKeyEvent => Step(s, None)
  }

  /** The event the capture path delivers back when a synthetic event is injected. */
  function Echo(x: Synthetic): Event
  {
    match x
    case SimulatePress(k) => KeyPress(k)
    case SimulateRelease(k) => KeyRelease(k)
  }

  /** Run the callback over a trace, collecting every synthetic event in order. */
  function Run(s: OpposedKeysState, events: seq<Event>): (OpposedKeysState, seq<Synthetic>)
    decreases |events|
  {
    if |events| == 0 then (s, [])
    else
      var r := Callback(s, events[0]);
      var rest := Run(r.state, events[1..]);
      (rest.0, (if r.emitted.Some? then [r.emitted.value] else []) + rest.1)
  }

  /** Of each opposed pair, at most one key is `Pressed`. */
  predicate NoPairBothPressed(s: OpposedKeysState)
  {
    && !(s.left == Pressed && s.right == Pressed)
    && !(s.up == Pressed && s.down == Pressed)
  }

  function DirOfEvent(e: Event): Option<Dir>
  {
    if e.NonKeyEvent? then None else DirOf(e.key)
  }

  /** Every callback keeps the exclusion invariant. */
  lemma CallbackKeepsExclusion(s: OpposedKeysState, e: Event)
    requires NoPairBothPressed(s)
    ensures NoPairBothPressed(Callback(s, e).state)
  {
    match DirOfEvent(e)
    case None =>
    case Some(d) =>
      var r := Callback(s, e);
      forall x: Dir
        ensures !(Get(r.state, x) == Pressed && Get(r.state, Opposite(x)) == Pressed)
      {
        if !SamePair(d, x) {
          assert !SamePair(d, Opposite(x));
          assert Get(s, x) != Pressed || Get(s, Opposite(x)) != Pressed by {
            match x
            case Left => case Right => case Up => case Down =>
          }
        }
      }
      assert Get(r.state, Left) != Pressed || Get(r.state, Opposite(Left)) != Pressed;
      assert Get(r.state, Up) != Pressed || Get(r.state, Opposite(Up)) != Pressed;
  }

  /** From all-`Released`, no trace ever leaves both keys of a pair `Pressed`. */
  lemma {:induction false} RunKeepsExclusion(s: OpposedKeysState, events: seq<Event>)
    requires NoPairBothPressed(s)
    ensures NoPairBothPressed(Run(s, events).0)
    decreases |events|
  {
    if |events| > 0 {
      CallbackKeepsExclusion(s, events[0]);
      RunKeepsExclusion(Callback(s, events[0]).state, events[1..]);
    }
  }

  lemma InitialNeverBothPressed(events: seq<Event>)
    ensures NoPairBothPressed(Run(Initial, events).0)
  {
    RunKeepsExclusion(Initial, events);
  }

  /** A trace with no event for the pair of `d` leaves that pair's states alone. */
  lemma {:induction false} RunLeavesUntouchedPair(s: OpposedKeysState, events: seq<Event>, d: Dir)
    requires forall i :: 0 <= i < |events| ==>
      DirOfEvent(events[i]).None? || !SamePair(d, DirOfEvent(events[i]).value)
    ensures Get(Run(s, events).0, d) == Get(s, d)
    ensures Get(Run(s, events).0, Opposite(d)) == Get(s, Opposite(d))
    ensures forall x :: x in Run(s, events).1 ==> DirOf(x.key).Some? && !SamePair(d, DirOf(x.key).value)
    decreases |events|
  {
    if |events| > 0 {
      var e := events[0];
      var r := Callback(s, e);
      if DirOfEvent(e).Some? {
        var k := DirOfEvent(e).value;
        assert !SamePair(k, d) && !SamePair(k, Opposite(d)) by {
          assert !SamePair(d, k);
          match d case Left => case Right => case Up => case Down =>
        }
      }
      RunLeavesUntouchedPair(r.state, events[1..], d);
      assert forall i :: 0 <= i < |events[1..]| ==> events[1..][i] == events[i + 1];
    }
  }

  /**
    The listener absorbs its own output: feeding back the echo of whatever one
    callback emitted emits nothing more. The echo of a synthetic press changes
    nothing at all; the echo of a synthetic release only moves the released key
    from `OpposedFresh` to `OpposedSeen`.
  */
  lemma EchoIsAbsorbed(s: OpposedKeysState, e: Event)
    requires Callback(s, e).emitted.Some?
    ensures var r := Callback(s, e);
      var x := r.emitted.value;
      var back := Callback(r.state, Echo(x));
      && back.emitted == None
      && (x.SimulatePress? ==> back.state == r.state)
      && (x.SimulateRelease? ==>
            back.state == Set(r.state, DirOf(x.key).value, OpposedSeen))
  {
    var d := DirOfEvent(e).value;
    var r := Callback(s, e);
    var o := Opposite(d);
    assert Opposite(o) == d by { match d case Left => case Right => case Up => case Down => }
    if e.KeyPress? {
      assert r.emitted.value == SimulateRelease(KeyOf(o));
      assert DirOf(KeyOf(o)) == Some(o) by { match o case Left => case Right => case Up => case Down => }
    } else {
      assert r.emitted.value == SimulatePress(KeyOf(o));
      assert DirOf(KeyOf(o)) == Some(o) by { match o case Left => case Right => case Up => case Down => }
      assert Get(r.state, o) == Pressed;
      assert Set(r.state, o, Pressed) == r.state by { match o case Left => case Right => case Up => case Down => }
    }
  }
}

=== FILE: socd_recency.dfy ===
/**
  What the SOCD machine means: when each synthetic event's echo comes straight
  back through the listener before the next physical event, the four states are
  exactly those of a "last pressed wins" rule over the physically held keys.

  The physical side records which keys are held and, per pair, which key was
  pressed most recently. A held key is `Pressed` (asserted downstream) when its
  opposite is not held or it was pressed last, and `OpposedSeen` (held but
  overridden) otherwise; `OpposedFresh` only ever exists between an injection and
  its echo.
*/
module SocdRecency {
  import opened Wrappers
  import opened Socd

  /** Physically held keys, and per pair the key pressed most recently. */
  datatype Physical = Physical(held: set<Dir>, latest: set<Dir>)

  const Untouched := Physical({}, {})

  /** When both keys of a pair are held, exactly one of them was pressed last. */
  predicate WellFormed(p: Physical)
  {
    forall d: Dir :: d in p.held && Opposite(d) in p.held ==>
      (d in p.latest <==> Opposite(d) !in p.latest)
  }

  function PhysicalPress(p: Physical, d: Dir): Physical
  {
    Physical(p.held + {d}, p.latest - {Opposite(d)} + {d})
  }

  function PhysicalRelease(p: Physical, d: Dir): Physical
  {
    Physical(p.held - {d}, p.latest)
  }

  /** The state "last pressed wins" prescribes for one key. */
  function Expected(p: Physical, d: Dir): OpposedKeyState
  {
    if d !in p.held then Released
    else if Opposite(d) !in p.held || d in p.latest then Pressed
    else OpposedSeen
  }

  function Abstraction(p: Physical): (s: OpposedKeysState)
    ensures forall d: Dir :: Get(s, d) == Expected(p, d)
  {
    OpposedKeysState(Expected(p, Left), Expected(p, Right), Expected(p, Up), Expected(p, Down))
  }

  /**
    One physical event handled to completion: the callback runs, and if it
    emitted a synthetic event, that event's echo runs through the callback too.
    The result carries the synthetic event of the first callback.
  */
  function Settle(s: OpposedKeysState, e: Event): Step
  {
    var r := Callback(s, e);
    match r.emitted
    case None => r
    case Some(x) => Step(Callback(r.state, Echo(x)).state, r.emitted)
  }

  lemma OppositeInvolutive(d: Dir)
    ensures Opposite(Opposite(d)) == d
  {
    match d case Left => case Right => case Up => case Down =>
  }

  lemma KeyDirRoundTrip(d: Dir)
    ensures DirOf(KeyOf(d)) == Some(d)
  {
    match d case Left => case Right => case Up => case Down =>
  }

  /** A physical press keeps the physical record well formed. */
  lemma PressKeepsWellFormed(p: Physical, d: Dir)
    requires WellFormed(p)
    ensures WellFormed(PhysicalPress(p, d))
  {
    var q := PhysicalPress(p, d);
    forall x: Dir | x in q.held && Opposite(x) in q.held
      ensures x in q.latest <==> Opposite(x) !in q.latest
    {
      OppositeInvolutive(x);
      OppositeInvolutive(d);
      if x != d && x != Opposite(d) {
        assert Opposite(x) != d && Opposite(x) != Opposite(d);
      }
    }
  }

  /**
    Pressing a key: the settled state is the "last pressed wins" state of the
    physical record after the press, and a release of the opposite key is
    injected exactly when the opposite was being asserted and this key was not.
  */
  lemma {:induction false} SettlePressRefines(p: Physical, d: Dir)
    requires WellFormed(p)
    ensures var r := Settle(Abstraction(p), KeyPress(KeyOf(d)));
      && r.state == Abstraction(PhysicalPress(p, d))
      && (r.emitted.Some? <==>
            Expected(p, d) != Pressed && Expected(p, Opposite(d)) == Pressed)
      && (r.emitted.Some? ==> r.emitted.value == SimulateRelease(KeyOf(Opposite(d))))
  {
    var s := Abstraction(p);
    var q := PhysicalPress(p, d);
    var o := Opposite(d);
    OppositeInvolutive(d);
    KeyDirRoundTrip(d);
    KeyDirRoundTrip(o);
    var r := Callback(s, KeyPress(KeyOf(d)));
    assert r == OnPress(s, d);
    var settled := Settle(s, KeyPress(KeyOf(d)));
    forall x: Dir
      ensures Get(settled.state, x) == Expected(q, x)
    {
      if !SamePair(d, x) {
        OppositeInvolutive(x);
        assert Opposite(x) != d && Opposite(x) != o;
        if r.emitted.Some? {
          assert !SamePair(o, x);
        }
      }
    }
    assert settled.state == Abstraction(q) by {
      assert settled.state.left == Get(settled.state, Left);
      assert settled.state.right == Get(settled.state, Right);
      assert settled.state.up == Get(settled.state, Up);
      assert settled.state.down == Get(settled.state, Down);
    }
  }

  /**
    Releasing a key: the settled state is the "last pressed wins" state after the
    release, and a press of the opposite key is injected exactly when the opposite
    is held but was overridden.
  */
  lemma {:induction false} SettleReleaseRefines(p: Physical, d: Dir)
    requires WellFormed(p)
    ensures var r := Settle(Abstraction(p), KeyRelease(KeyOf(d)));
      && r.state == Abstraction(PhysicalRelease(p, d))
      && (r.emitted.Some? <==> Expected(p, Opposite(d)) == OpposedSeen)
      && (r.emitted.Some? ==> r.emitted.value == SimulatePress(KeyOf(Opposite(d))))
  {
    var s := Abstraction(p);
    var q := PhysicalRelease(p, d);
    var o := Opposite(d);
    OppositeInvolutive(d);
    KeyDirRoundTrip(d);
    KeyDirRoundTrip(o);
    var r := Callback(s, KeyRelease(KeyOf(d)));
    assert r == OnRelease(s, d);
    var settled := Settle(s, KeyRelease(KeyOf(d)));
    forall x: Dir
      ensures Get(settled.state, x) == Expected(q, x)
    {
      if !SamePair(d, x) {
        OppositeInvolutive(x);
        assert Opposite(x) != d && Opposite(x) != o;
      }
    }
    assert settled.state == Abstraction(q) by {
      assert settled.state.left == Get(settled.state, Left);
      assert settled.state.right == Get(settled.state, Right);
      assert settled.state.up == Get(settled.state, Up);
      assert settled.state.down == Get(settled.state, Down);
    }
  }

  /** A physical key event of one of the four bound keys. */
  datatype PhysicalEvent = Pressing(dir: Dir) | Releasing(dir: Dir)

  function ToEvent(e: PhysicalEvent): Event
  {
    match e
    case Pressing(d) => KeyPress(KeyOf(d))
    case Releasing(d) => KeyRelease(KeyOf(d))
  }

  function Apply(p: Physical, e: PhysicalEvent): Physical
  {
    match e
    case Pressing(d) => PhysicalPress(p, d)
    case Releasing(d) => PhysicalRelease(p, d)
  }

  function ApplyAll(p: Physical, events: seq<PhysicalEvent>): Physical
    decreases |events|
  {
    if |events| == 0 then p else ApplyAll(Apply(p, events[0]), events[1..])
  }

  /** Settle every physical event of a trace in turn. */
  function SettleAll(s: OpposedKeysState, events: seq<PhysicalEvent>): OpposedKeysState
    decreases |events|
  {
    if |events| == 0 then s else SettleAll(Settle(s, ToEvent(events[0])).state, events[1..])
  }

  /**
    Over any trace of physical presses and releases (key repeats included), with
    echoes delivered synchronously, the machine's state is always the
    "last pressed wins" state of the keys held.
  */
  lemma {:induction false} SettleAllRefines(p: Physical, events: seq<PhysicalEvent>)
    requires WellFormed(p)
    ensures SettleAll(Abstraction(p), events) == Abstraction(ApplyAll(p, events))
    ensures WellFormed(ApplyAll(p, events))
    decreases |events|
  {
    if |events| > 0 {
      match events[0] {
        case Pressing(d) =>
          SettlePressRefines(p, d);
          PressKeepsWellFormed(p, d);
        case Releasing(d) =>
          SettleReleaseRefines(p, d);
      }
      SettleAllRefines(Apply(p, events[0]), events[1..]);
    }
  }

  /** The machine starts in the abstraction of "nothing held". */
  lemma InitialIsUntouched()
    ensures Abstraction(Untouched) == Initial
    ensures WellFormed(Untouched)
  {
  }
}

=== FILE: wrappers.dfy ===
/** Failure-carrying datatypes shared by the model. */
module Wrappers {

  /** A value that may be absent (Rust's `Option`, a missing TypeScript record key). */
  datatype Option<+T> = None | Some(value: T)

  /** A value or an error (Rust's `Result`, or a panic that aborts the operation). */
  datatype Result<+R, +E> = Success(value: R) | Failure(error: E)
}
